=== FILE: README.md ===
# Product passport consumer backend: discovery cache and data-plane callbacks

A Dafny model of two pieces of decision logic in the Catena-X product passport
consumer backend.

- **Discovery endpoint selection and caching** (`CatenaXService`). The service
  asks the discovery finder for the endpoints of logical keys. It caches the
  addresses in the vault under `discovery.<key>` and serves later bpn and edc
  discovery requests from that cache. The model has the configuration check,
  the lookup in a finder answer, the guarded vault writes and their
  composition. It also has `start` and `addEndpoint`. For `getEdcDiscovery`
  and `getBpnDiscovery` it models the cache pre-checks and the request they
  would send.
- **Callback validation and outcome classification** (`AppController`). The
  two data-plane callbacks validate the endpoint data reference (EDR) they
  receive. They correlate it with the process store and end in exactly one
  outcome: `BadRequest`, `NotFound(reason)`, `Forbidden`, `Null` or `Success`
  (the source's "ok"). On success they apply a fixed set of writes to the
  process record.

The model is functional. The vault is a `map<string, string>`, and a name
that is absent stands for both a missing secret and a null value. The process
store is a `map<string, Process>`. Each operation returns its result together
with the vault or store it leaves. Remote and opaque collaborators are
function-typed parameters:

- the discovery finder: `seq<string> -> Option<seq<Endpoint>>`;
- the vault's verdict on a write: `(string, string) -> bool`;
- the JWT decoder: `string -> Option<Claims>`;
- the registry query: `(Search, DataPlaneEndpoint) -> Option<TwinFound>`;
- `CatenaXUtil.buildEndpoint`: `string -> Option<string>`, where `None` means
  it threw;
- the data-plane passport fetch.

Files:

- `wrappers.dfy`: `Option` and `Result`.
- `seqs.dfy`: `FirstIndex`, the first-match search used by both the finder
  lookup and the sub-model endpoint selection.
- `catenax_service.dfy` and `catenax_service_properties.dfy`: the discovery
  side.
- `process_store.dfy`: the process record.
- `app_controller.dfy` and `app_controller_properties.dfy`: the callbacks.

Behaviour of the code worth noting:

- A process whose search manifest (`SearchStatus`) is null makes
  `getDigitalTwin` dereference null at AppController.java line 160. The answer
  is `Forbidden`, not a NotFound.
- A sub-model endpoint body without the DSP key, next to a non-empty idShort,
  dereferences null at line 196 and gives `Forbidden`.
- A missing asset id next to a non-empty normalised address dereferences null
  at line 205 and gives `Forbidden`. An asset id that is present but empty is
  only logged.
- When `buildEndpoint` throws, the controller returns a null response. This
  is the `Null` outcome.
- `addEndpoint(type)` caches only the configured bpn slot and the literal
  `edc` slot. A lazy fill therefore succeeds only when the identifier type is
  the bpn key or `"edc"`. `GetBpnDiscovery` states this.
- The bpn discovery endpoint is cached under the configured bpn key. The edc
  discovery endpoint is cached under the literal `edc`, whatever the
  configured edc key is, and `getEdcDiscovery` reads it from there.

## Model

| member | source | states |
|---|---|---|
| CatenaXService.EmptyVariables | consumer-backend/productpass/src/main/java/org/eclipse/tractusx/productpass/services/CatenaXService.java:135-147 | "discovery.endpoint" is reported iff the finder address is empty. "discovery.edcKey" and "discovery.bpnKey" are both reported iff the bpn key is empty. Names come in declaration order without repeats. |
| CatenaXService.EmptyVariablesIntended | consumer-backend/productpass/src/main/java/org/eclipse/tractusx/productpass/services/CatenaXService.java:135-147 | The corrected check: each name is reported iff its own key is empty, in declaration order. |
| CatenaXServiceProperties.EdcKeyNeverInspected | consumer-backend/productpass/src/main/java/org/eclipse/tractusx/productpass/services/CatenaXService.java:140-145 | The check as written gives the same list whatever the edc key is. |
| CatenaXServiceProperties.EmptyEdcKeyGoesUnreported | consumer-backend/productpass/src/main/java/org/eclipse/tractusx/productpass/services/CatenaXService.java:137-146 | A configuration whose only empty key is the edc key passes the check as written; the intended check reports "discovery.edcKey". |
| CatenaXService.VaultKey | consumer-backend/productpass/src/main/java/org/eclipse/tractusx/productpass/services/CatenaXService.java:309 | A vault name is "discovery." followed by the key, so distinct keys never share a slot. |
| CatenaXService.FindEndpoint | consumer-backend/productpass/src/main/java/org/eclipse/tractusx/productpass/services/CatenaXService.java:222-230 | The endpoint returned is in the answer and has the requested type. The lookup fails, with the key in the error, iff no endpoint of the answer has that type. |
| CatenaXService.UpdateEndpointFile | consumer-backend/productpass/src/main/java/org/eclipse/tractusx/productpass/services/CatenaXService.java:301-317 | An empty address gives false and the same vault. Otherwise the result is true iff the vault accepts the write. Then "discovery.key" holds the address. No other name changes. |
| CatenaXService.UpdateDefaultDiscoveryFile | consumer-backend/productpass/src/main/java/org/eclipse/tractusx/productpass/services/CatenaXService.java:332-348 | True iff both writes succeed. The edc endpoint lands in the literal "edc" slot even when the bpn write failed. The bpn endpoint lands under the configured bpn key. A refused write leaves its own slot as it was, whatever the other write does. Only those two names can change. |
| CatenaXService.UpdateDiscovery | consumer-backend/productpass/src/main/java/org/eclipse/tractusx/productpass/services/CatenaXService.java:246-259 | An empty answer gives false with no vault change. A non-empty answer lacking the key is an error. Otherwise the result is true iff the endpoint found for the key has a non-empty address the vault accepts, and then its address is cached under "discovery.key". |
| CatenaXService.UpdateDefaultDiscovery | consumer-backend/productpass/src/main/java/org/eclipse/tractusx/productpass/services/CatenaXService.java:272-286 | An empty answer gives false with no vault change. A non-empty answer lacking the bpn key or the edc key is an error, and the bpn key is reported first. Otherwise the result is true iff both found endpoints are storable in their slots. Each storable endpoint is cached in its slot, even when the other write fails. A refused write leaves its own slot as it was. |
| CatenaXService.Start | consumer-backend/productpass/src/main/java/org/eclipse/tractusx/productpass/services/CatenaXService.java:167-180 | The finder is asked for the bpn and edc keys. Its answer is returned even when caching reported false. A finder failure or a missing key gives null with the vault unchanged. Otherwise start succeeds and caches each found default endpoint the vault takes in its slot. A refused write leaves its own slot as it was. |
| CatenaXService.AddEndpoint | consumer-backend/productpass/src/main/java/org/eclipse/tractusx/productpass/services/CatenaXService.java:193-207 | The finder is asked for one key and its answer is cached as the default bpn and edc endpoints. It succeeds iff the answer holds both default keys and both found endpoints are storable. Every other case, including a false update, is an error. A storable found endpoint stays cached in its slot even when the call fails. A refused write leaves its own slot as it was. A finder or lookup error leaves the vault unchanged. |
| CatenaXService.GetEdcDiscovery | consumer-backend/productpass/src/main/java/org/eclipse/tractusx/productpass/services/CatenaXService.java:414-440 | The call succeeds iff "discovery.edc" is already cached. The request goes to the cached address with the partner list as body. The vault is never filled here. |
| CatenaXService.GetBpnDiscovery | consumer-backend/productpass/src/main/java/org/eclipse/tractusx/productpass/services/CatenaXService.java:455-499 | A cached type is served with no finder call and no vault change. Otherwise addEndpoint runs first, and its vault is the one left. Its failure is rethrown. Success then requires addEndpoint to succeed and to have cached the type, so the type must be the bpn key or "edc". The search address is the cached address followed by the search path. |
| CatenaXServiceProperties.DefaultsServeEdcDiscovery | consumer-backend/productpass/src/main/java/org/eclipse/tractusx/productpass/services/CatenaXService.java:419-426 | After a successful default update, which writes at line 335, getEdcDiscovery succeeds. It targets the address the finder gave for the edc key. |
| CatenaXServiceProperties.DefaultsServeBpnDiscovery | consumer-backend/productpass/src/main/java/org/eclipse/tractusx/productpass/services/CatenaXService.java:460-476 | After a successful default update, a bpn discovery for the bpn key is served from the cache whatever the finder would say. The search goes to the finder's bpn address plus the search path. |
| CatenaXServiceProperties.LazyFillServesBpnKey | consumer-backend/productpass/src/main/java/org/eclipse/tractusx/productpass/services/CatenaXService.java:460-476 | An uncached bpn key is filled through addEndpoint when the finder's answer holds storable bpn and edc endpoints. The search then targets the bpn endpoint answered. |
| CatenaXServiceProperties.DefaultDiscoveryFileIdempotent | consumer-backend/productpass/src/main/java/org/eclipse/tractusx/productpass/services/CatenaXService.java:332-348 | Writing the same default endpoints twice gives the same result and vault as writing them once. The verdicts agree because the vault's verdict depends only on the name and value written. |
| CatenaXServiceProperties.UpdateDiscoveryServesBpnDiscovery | consumer-backend/productpass/src/main/java/org/eclipse/tractusx/productpass/services/CatenaXService.java:460-476 | After updateDiscovery caches an answer for a key (line 253), a bpn discovery for that type is served from the cache with no finder call. It targets an address the finder gave for that key. |
| CatenaXServiceProperties.StartServesEdcDiscovery | consumer-backend/productpass/src/main/java/org/eclipse/tractusx/productpass/services/CatenaXService.java:167-180 | When the finder's answer to start holds both default keys and the vault takes its edc endpoint, start succeeds. A following getEdcDiscovery targets that endpoint's address. |
| ProcessStore.SetStatus | consumer-backend/productpass/src/main/java/org/eclipse/tractusx/productpass/http/controllers/AppController.java:212-215 | Setting a status keeps the earlier history and appends one transition. The current status is the latest transition's name. This is the assumed behaviour of ProcessManager.setStatus, which the cited lines only call. |
| AppControllerProperties.AppendNeverMerges | consumer-backend/productpass/src/main/java/org/eclipse/tractusx/productpass/http/controllers/AppController.java:212-215 | Setting the same status twice records two identical transitions and keeps the earlier history (assumed behaviour of ProcessManager.setStatus). |
| AppController.GetEndpointData | consumer-backend/productpass/src/main/java/org/eclipse/tractusx/productpass/http/controllers/AppController.java:236-259 | A reference is accepted iff it parsed, its address and authorization code are non-empty, and its offer is identified. A present offer id must be non-empty. Without one, the decoded token needs a non-empty "cid". Failures are reported in the order parse, address, code, offer. |
| AppControllerProperties.DecoderUnusedWithOfferId | consumer-backend/productpass/src/main/java/org/eclipse/tractusx/productpass/http/controllers/AppController.java:247-256 | When an offer id is present the token is not decoded: any decoder gives the same verdict. |
| AppController.Correlate | consumer-backend/productpass/src/main/java/org/eclipse/tractusx/productpass/http/controllers/AppController.java:150-167 | The checks run in order: the process exists, has a status, has a search manifest (null gives Forbidden), has a search, and has a registry for the endpoint id. Each failure has its own outcome. Correlation succeeds iff all five checks pass, and then yields the registry stored under that endpoint id. |
| AppController.SelectEndpoint | consumer-backend/productpass/src/main/java/org/eclipse/tractusx/productpass/http/controllers/AppController.java:186 | The selected endpoint is the first whose interface name equals the configured one. There is none iff no endpoint has that name. |
| AppControllerProperties.LaterEndpointsDoNotChangeSelection | consumer-backend/productpass/src/main/java/org/eclipse/tractusx/productpass/http/controllers/AppController.java:186 | Once an endpoint under the configured interface exists, endpoints appended after the list, matching or not, leave the selection unchanged. |
| AppController.ExtractConnection | consumer-backend/productpass/src/main/java/org/eclipse/tractusx/productpass/http/controllers/AppController.java:182-195 | Extraction fails iff the query found no sub-model, or no endpoint matches, or the matched endpoint's body is unreadable. Otherwise the DSP address and asset id come from the first matching endpoint. |
| AppController.Connect | consumer-backend/productpass/src/main/java/org/eclipse/tractusx/productpass/http/controllers/AppController.java:196-207 | An empty connector id or address gives NotFound. A missing address gives Forbidden. A normaliser failure gives Null. A missing asset id next to a non-empty normalised address gives Forbidden. It succeeds iff none of these apply, so an empty asset id passes. |
| AppController.Record | consumer-backend/productpass/src/main/java/org/eclipse/tractusx/productpass/http/controllers/AppController.java:208-215 | Success writes the normalised address, the registry's bpn, the twin, and status "digital-twin-found" with History(assetId, "READY"). Search and passport are untouched (assumed behaviour of ProcessManager.saveDigitalTwin3, which line 210 only calls). |
| AppController.GetDigitalTwin | consumer-backend/productpass/src/main/java/org/eclipse/tractusx/productpass/http/controllers/AppController.java:138-222 | A validation failure is BadRequest before any lookup. Correlation failures pass through unchanged. Every outcome but Success leaves the store unchanged. After correlation, the outcome is NotFound("No endpoint address found") iff no readable matching sub-model endpoint is found. Otherwise it is the connection check's error (ConnectorEmpty, Forbidden or Null) or Success. Success changes only the callback's process, and leaves its search manifest and passport as they were. It records the normalised address, the matched bpn and the queried twin, and appends "digital-twin-found" with History(assetId, "READY") to the earlier history, which stays consistent. |
| AppControllerProperties.UnknownEndpointIdIsNotFound | consumer-backend/productpass/src/main/java/org/eclipse/tractusx/productpass/http/controllers/AppController.java:164-167 | For an otherwise valid process, an endpoint id absent from its search is NotFound("No dtr") and leaves the store and history as they were. |
| AppControllerProperties.SuccessRecordsFirstMatchingEndpoint | consumer-backend/productpass/src/main/java/org/eclipse/tractusx/productpass/http/controllers/AppController.java:182-210 | An accepted registry callback records the normalised DSP address of the first matching endpoint. It also records the bpn of the registry the endpoint id names, the twin the query returned, and a transition whose history entry carries that endpoint's "id" in state READY. |
| AppControllerProperties.ReplayRecordsAgain | consumer-backend/productpass/src/main/java/org/eclipse/tractusx/productpass/http/controllers/AppController.java:208-215 | Replaying an accepted registry callback, with the same registry answer and the same address normaliser, is accepted again and appends the transition a second time (assumed append-only behaviour of ProcessManager.setStatus). |
| AppController.EndpointCallback | consumer-backend/productpass/src/main/java/org/eclipse/tractusx/productpass/http/controllers/AppController.java:272-300 | Validation failure gives BadRequest. A missing process gives NotFound. No passport gives NotFound("Passport not found"). A fetch failure gives Forbidden. Only a fetched passport gives Success, which stores it on the process and nothing else (assumed behaviour of ProcessManager.savePassport, which line 292 only calls). |
| AppControllerProperties.EndpointCallbackIgnoresProcessState | consumer-backend/productpass/src/main/java/org/eclipse/tractusx/productpass/http/controllers/AppController.java:284-292 | The data callback's outcome depends only on whether the process exists. It is the same before or after the registry callback. |

## Left out

- HTTP traffic is left out: the POSTs to the finder, the edc discovery and the
  bpn discovery, their headers and bearer tokens, and JSON binding. The finder
  is a parameter. `GetEdcDiscovery` and `GetBpnDiscovery` stop at the request
  they would send.
- `checkEmptyVariables` lives in `BaseService`, which is not part of this
  model. It is called first by `getEdcDiscovery`, `getBpnDiscovery` and
  `getDiscoveryEndpoints` (CatenaXService.java line 384). `start` and
  `addEndpoint` reach the finder only through `getDiscoveryEndpoints`. So
  `GetEdcDiscovery`, `GetBpnDiscovery`, `Start` and `AddEndpoint` all leave out
  this early exit on an unset configuration variable.
- The vault (`VaultService`) is a map plus a write verdict. A rejected write
  is assumed to leave the vault unchanged. Exceptions thrown by the vault are
  not modelled, and a failed read and a null read are the same error.
- `searchDTRs` and the registry-query thread in `getDigitalTwin` are left out
  as concurrency. The query is an abstract function of the search and the
  reference.
- `ProcessManager`, `AasService`, `DataPlaneService` and `DtrSearchManager`
  are not part of this model. The process record is a plain datatype, and its
  status history is modelled as an append-only sequence. `saveDigitalTwin3`
  and `savePassport` are assumed to write only their own artifact.
- Failures inside `ProcessManager` writes, `savePassport`'s returned path,
  and the interrupted-thread case are not modelled. Each of them would end in
  Forbidden.
- The registry query is modelled as returning a twin together with its
  sub-model, or nothing. A null twin beside a non-null sub-model is not
  modelled. That case fails while logging at AppController.java line 211,
  after three writes whose effect depends on `ProcessManager`.
- Null string fields of the parsed reference and of the sub-model are not
  modelled: idShort, interface name, address and authorization code are
  strings. Token claims are taken as strings.
- `AppController.GetEndpointData`: the exception messages are not modelled,
  only which check failed. The source reports an empty offer id with the
  authorization-code message (line 254); the model names it `OfferIdEmpty`.
- `CatenaXService.FindEndpoint`: the source's `findAny` may return any
  matching endpoint. The model returns the first, and its contract promises
  only "some endpoint of that type".
- Timestamps (`dtRequestTime`, `DateTimeUtil`), logging, Spring wiring and
  configuration loading (`init`) are left out, and so are the `index` and
  `health` endpoints.

## Findings

| source | as written | input that shows it | evidently intended | confidence | as-written member | corrected member |
|---|---|---|---|---|---|---|
| consumer-backend/productpass/src/main/java/org/eclipse/tractusx/productpass/services/CatenaXService.java:140-142 | The guard for "discovery.edcKey" tests the bpn key, so the edc key is never inspected. | endpoint "https://finder.example/api", bpn key "manufacturerPartId", edc key "": the list is empty | "discovery.edcKey" is reported iff the edc key is empty | high; not executed | CatenaXService.EmptyVariables (with CatenaXServiceProperties.EmptyEdcKeyGoesUnreported) | CatenaXService.EmptyVariablesIntended |

=== FILE: app_controller.dfy ===
/** The two data-plane callbacks of the application controller: validating the
    endpoint data reference they carry, correlating it with the process store,
    and either rejecting it or applying a fixed set of writes.

    Every callback maps its inputs to an outcome and the store it leaves. The
    remote collaborators are parameters: the JWT decoder, the digital twin
    registry query, the connector-address normaliser and the data-plane fetch. */
module AppController {
  import opened Wrappers
  import opened ProcessStore
  import Seqs

  // ---------------------------------------------------------------------------
  // Endpoint data validation
  // ---------------------------------------------------------------------------

  /** The data plane endpoint reference a callback body parses into. */
  datatype DataPlaneEndpoint = DataPlaneEndpoint(id: string, endpoint: string, authCode: string, offerId: Option<string>)

  /** Claims of a decoded authorization token. */
  type Claims = map<string, string>

  /** Decodes an authorization code; `None` when it cannot be parsed. */
  type TokenDecoder = string -> Option<Claims>

  const OfferClaim: string := "cid"

  /** Why getEndpointData rejects a body. */
  datatype InvalidEndpoint =
    | RequestEmpty        // the body did not parse
    | AddressEmpty        // empty data plane address
    | AuthCodeEmpty       // empty authorization code
    | TokenUnreadable     // no offer id, and the token cannot be decoded
    | OfferClaimEmpty     // no offer id, and the token has no non-empty "cid"
    | OfferIdEmpty        // an offer id that is empty

  /** The offer the reference is for is identified: by a non-empty offer id
      when there is one, else by a non-empty "cid" claim of the token. */
  predicate OfferIdentified(edr: DataPlaneEndpoint, decode: TokenDecoder)
  {
    match edr.offerId
    case Some(offer) => offer != ""
    case None =>
      var claims := decode(edr.authCode);
      claims.Some? && OfferClaim in claims.value && claims.value[OfferClaim] != ""
  }

  /** A reference a callback accepts. */
  predicate Acceptable(edr: DataPlaneEndpoint, decode: TokenDecoder)
  {
    edr.endpoint != "" && edr.authCode != "" && OfferIdentified(edr, decode)
  }

  /** getEndpointData: the parsed reference when it is acceptable, otherwise
      the first check it fails, in the order parse, address, authorization
      code, offer. */
  function GetEndpointData(parsed: Option<DataPlaneEndpoint>, decode: TokenDecoder)
    : (r: Result<DataPlaneEndpoint, InvalidEndpoint>)
    ensures r.Ok? <==> parsed.Some? && Acceptable(parsed.value, decode)
    ensures r.Ok? ==> parsed == Some(r.value)
    ensures r == Err(RequestEmpty) <==> parsed.None?
    ensures r == Err(AddressEmpty) <==> parsed.Some? && parsed.value.endpoint == ""
    ensures r == Err(AuthCodeEmpty) <==> parsed.Some? && parsed.value.endpoint != "" && parsed.value.authCode == ""
    ensures r == Err(OfferIdEmpty) <==>
              parsed.Some? && parsed.value.endpoint != "" && parsed.value.authCode != "" && parsed.value.offerId == Some("")
    ensures r == Err(TokenUnreadable) || r == Err(OfferClaimEmpty) ==>
              parsed.Some? && parsed.value.endpoint != "" && parsed.value.authCode != "" && parsed.value.offerId.None?
  {
    match parsed
    case None => Err(RequestEmpty)
    case Some(edr) =>
      if edr.endpoint == "" then Err(AddressEmpty)
      else if edr.authCode == "" then Err(AuthCodeEmpty)
      else if edr.offerId.None? then
        match decode(edr.authCode)
        case None => Err(TokenUnreadable)
        case Some(claims) =>
          if OfferClaim !in claims || claims[OfferClaim] == "" then Err(OfferClaimEmpty)
          else Ok(edr)
      else if edr.offerId.value == "" then Err(OfferIdEmpty)
      else Ok(edr)
  }

  // ---------------------------------------------------------------------------
  // Outcomes
  // ---------------------------------------------------------------------------

  /** The reasons a callback answers "not found". */
  datatype NotFoundReason =
    | ProcessNotFound     // "Process not found!"
    | NoStatus            // "No status is created"
    | NoSearch            // "No search performed"
    | NoDtr               // "No dtr available for this endpointId"
    | NoEndpointAddress   // "No endpoint address found"
    | ConnectorEmpty      // "ConnectorId and Connector Address may be empty"
    | PassportNotFound    // "Passport not found in data plane!"

  /** The answer of a callback; `Null` is the null response returned when the
      connector address cannot be normalised. */
  datatype Outcome = BadRequest(invalid: InvalidEndpoint) | NotFound(reason: NotFoundReason) | Forbidden | Null | Success

  /** A callback's outcome and the store it leaves. */
  datatype Reply = Reply(outcome: Outcome, store: Store)

  // ---------------------------------------------------------------------------
  // Registry callback
  // ---------------------------------------------------------------------------

  /** A sub-model endpoint: its interface name and its sub-protocol body, `None`
      when that body (or the protocol information) cannot be read. */
  datatype EndPoint = EndPoint(interfaceName: string, subprotocolBody: Option<map<string, string>>)

  datatype SubModel = SubModel(idShort: string, identification: string, endpoints: seq<EndPoint>)

  /** What the registry query found: the digital twin and its passport sub-model. */
  datatype TwinFound = TwinFound(twin: DigitalTwin, subModel: SubModel)

  /** The decentralized registry query, run on the process search and the
      validated reference; `None` when it yields no sub-model. */
  type RegistryQuery = (Search, DataPlaneEndpoint) -> Option<TwinFound>

  /** Normalises a connector address; `None` when it throws. */
  type EndpointBuilder = string -> Option<string>

  /** The interface name the data plane endpoint is declared under, and the
      sub-protocol key holding the connector's DSP address. */
  datatype DtrConfig = DtrConfig(endpointInterface: string, dspEndpointKey: string)

  const AssetIdKey: string := "id"
  const TwinFoundStatus: string := "digital-twin-found"
  const ReadyState: string := "READY"

  /** What the process store yields for a callback: the process, its status,
      its search and the registry matched by the endpoint id. */
  datatype Correlation = Correlation(process: Process, status: Status, search: Search, dtr: Dtr)

  /** The fields read from the selected sub-model endpoint; a key missing from
      the sub-protocol body reads as `None`. */
  datatype Connection = Connection(twin: DigitalTwin, connectorId: string, connectorAddress: Option<string>, assetId: Option<string>)

  /** The normalised connector address and the asset id to record. */
  datatype Target = Target(address: string, assetId: Option<string>)

  function Lookup(body: map<string, string>, key: string): Option<string>
  {
    if key in body then Some(body[key]) else None
  }

  /** `i` is the first endpoint declared under interface `name`. */
  predicate FirstMatching(endpoints: seq<EndPoint>, name: string, i: int)
  {
    0 <= i < |endpoints| && endpoints[i].interfaceName == name
    && forall j :: 0 <= j < i ==> endpoints[j].interfaceName != name
  }

  /** The first sub-model endpoint declared under the configured interface. */
  function SelectEndpoint(endpoints: seq<EndPoint>, name: string): (r: Option<nat>)
    ensures r.Some? ==> FirstMatching(endpoints, name, r.value)
    ensures r.None? <==> forall e :: e in endpoints ==> e.interfaceName != name
  {
    Seqs.FirstIndex(endpoints, (e: EndPoint) => e.interfaceName == name)
  }

  /** Looks the process up and checks, in order, that it exists, has a status,
      has a search, and holds a registry for `endpointId`. A missing search
      manifest dereferences null, which the controller answers with Forbidden. */
  function Correlate(store: Store, processId: string, endpointId: string): (r: Result<Correlation, Outcome>)
    ensures r.Ok? ==>
              && processId in store && r.value.process == store[processId]
              && store[processId].status == Some(r.value.status)
              && store[processId].searchStatus.Some?
              && store[processId].searchStatus.value.search == Some(r.value.search)
              && endpointId in store[processId].searchStatus.value.dtrs
              && store[processId].searchStatus.value.dtrs[endpointId] == r.value.dtr
    ensures r.Ok? <==>
              && processId in store && store[processId].status.Some? && store[processId].searchStatus.Some?
              && store[processId].searchStatus.value.search.Some?
              && endpointId in store[processId].searchStatus.value.dtrs
    ensures r == Err(NotFound(ProcessNotFound)) <==> processId !in store
    ensures r == Err(NotFound(NoStatus)) <==> processId in store && store[processId].status.None?
    ensures r == Err(Forbidden) <==>
              processId in store && store[processId].status.Some? && store[processId].searchStatus.None?
    ensures r == Err(NotFound(NoSearch)) <==>
              && processId in store && store[processId].status.Some? && store[processId].searchStatus.Some?
              && store[processId].searchStatus.value.search.None?
    ensures r == Err(NotFound(NoDtr)) <==>
              && processId in store && store[processId].status.Some? && store[processId].searchStatus.Some?
              && store[processId].searchStatus.value.search.Some?
              && endpointId !in store[processId].searchStatus.value.dtrs
  {
    if processId !in store then Err(NotFound(ProcessNotFound))
    else
      var process := store[processId];
      if process.status.None? then Err(NotFound(NoStatus))
      else if process.searchStatus.None? then Err(Forbidden)
      else if process.searchStatus.value.search.None? then Err(NotFound(NoSearch))
      else if endpointId !in process.searchStatus.value.dtrs then Err(NotFound(NoDtr))
      else Ok(Correlation(process, process.status.value, process.searchStatus.value.search.value,
                          process.searchStatus.value.dtrs[endpointId]))
  }

  /** Reads the connector id from the sub-model and the connector address and
      asset id from the first endpoint under the configured interface; `None`
      ("No endpoint address found") when there is no sub-model, no such
      endpoint, or its sub-protocol body cannot be read. */
  function ExtractConnection(found: Option<TwinFound>, config: DtrConfig): (r: Option<Connection>)
    ensures r.Some? <==>
              && found.Some?
              && SelectEndpoint(found.value.subModel.endpoints, config.endpointInterface).Some?
              && found.value.subModel.endpoints[SelectEndpoint(found.value.subModel.endpoints, config.endpointInterface).value].subprotocolBody.Some?
    ensures r.Some? ==>
              exists i :: FirstMatching(found.value.subModel.endpoints, config.endpointInterface, i)
                && var body := found.value.subModel.endpoints[i].subprotocolBody;
                && body.Some?
                && r.value == Connection(found.value.twin, found.value.subModel.idShort,
                                         Lookup(body.value, config.dspEndpointKey), Lookup(body.value, AssetIdKey))
  {
    match found
    case None => None
    case Some(f) =>
      match SelectEndpoint(f.subModel.endpoints, config.endpointInterface)
      case None => None
      case Some(i) =>
        match f.subModel.endpoints[i].subprotocolBody
        case None => None
        case Some(body) =>
          Some(Connection(f.twin, f.subModel.idShort, Lookup(body, config.dspEndpointKey), Lookup(body, AssetIdKey)))
  }

  /** Checks the connection and normalises its address. An empty connector id
      or address is NotFound; a missing address (with a non-empty id) or a
      missing asset id next to a non-empty normalised address dereferences null
      (Forbidden); a normaliser failure answers null. An empty asset id is not
      rejected. */
  function Connect(c: Connection, build: EndpointBuilder): (r: Result<Target, Outcome>)
    ensures r.Ok? <==>
              && c.connectorId != "" && c.connectorAddress.Some? && c.connectorAddress.value != ""
              && build(c.connectorAddress.value).Some?
              && (build(c.connectorAddress.value).value != "" ==> c.assetId.Some?)
    ensures r.Ok? ==>
              && c.connectorId != "" && c.connectorAddress.Some? && c.connectorAddress.value != ""
              && build(c.connectorAddress.value) == Some(r.value.address)
              && r.value.assetId == c.assetId
              && (r.value.address != "" ==> c.assetId.Some?)
    ensures r == Err(NotFound(ConnectorEmpty)) <==> c.connectorId == "" || c.connectorAddress == Some("")
    ensures r == Err(Null) <==>
              && c.connectorId != "" && c.connectorAddress.Some? && c.connectorAddress.value != ""
              && build(c.connectorAddress.value).None?
    ensures r == Err(Forbidden) <==>
              || (c.connectorId != "" && c.connectorAddress.None?)
              || (&& c.connectorId != "" && c.connectorAddress.Some? && c.connectorAddress.value != ""
                  && build(c.connectorAddress.value).Some? && build(c.connectorAddress.value).value != ""
                  && c.assetId.None?)
  {
    if c.connectorId == "" then Err(NotFound(ConnectorEmpty))
    else if c.connectorAddress.None? then Err(Forbidden)
    else if c.connectorAddress.value == "" then Err(NotFound(ConnectorEmpty))
    else
      match build(c.connectorAddress.value)
      case None => Err(Null)
      case Some(address) =>
        if address != "" && c.assetId.None? then Err(Forbidden)
        else Ok(Target(address, c.assetId))
  }

  /** The writes of a successful registry callback: the normalised connector
      address, the registry's business partner, the digital twin, and the
      status "digital-twin-found" with the asset id in state READY. */
  function Record(process: Process, status: Status, target: Target, dtr: Dtr, twin: DigitalTwin): (p: Process)
    requires process.status == Some(status)
    ensures p.endpoint == Some(target.address) && p.bpn == Some(dtr.bpn) && p.digitalTwin == Some(twin)
    ensures p.status.Some? && p.status.value.current == TwinFoundStatus
    ensures p.status.value.history == status.history + [Transition(TwinFoundStatus, History(target.assetId, ReadyState))]
    ensures p.searchStatus == process.searchStatus && p.passport == process.passport
  {
    process.(endpoint := Some(target.address), bpn := Some(dtr.bpn), digitalTwin := Some(twin),
             status := Some(SetStatus(status, TwinFoundStatus, History(target.assetId, ReadyState))))
  }

  /** getDigitalTwin: the registry callback for `endpointId` of `processId`. */
  function GetDigitalTwin(parsed: Option<DataPlaneEndpoint>, decode: TokenDecoder, processId: string, endpointId: string,
                          store: Store, query: RegistryQuery, build: EndpointBuilder, config: DtrConfig): (r: Reply)
    ensures GetEndpointData(parsed, decode).Err? ==> r == Reply(BadRequest(GetEndpointData(parsed, decode).error), store)
    ensures r.outcome.BadRequest? ==> GetEndpointData(parsed, decode).Err?
    ensures GetEndpointData(parsed, decode).Ok? && Correlate(store, processId, endpointId).Err? ==>
              r == Reply(Correlate(store, processId, endpointId).error, store)
    ensures r.outcome != Success ==> r.store == store
    ensures r.outcome == Success ==>
              && GetEndpointData(parsed, decode).Ok?
              && Correlate(store, processId, endpointId).Ok?
              && r.store.Keys == store.Keys
              && (forall other :: other in store && other != processId ==> r.store[other] == store[other])
              && var c := Correlate(store, processId, endpointId).value;
              && var found := query(c.search, GetEndpointData(parsed, decode).value);
              && found.Some?
              && r.store[processId].bpn == Some(c.dtr.bpn)
              && r.store[processId].digitalTwin == Some(found.value.twin)
              && ExtractConnection(found, config).Some?
              && var conn := ExtractConnection(found, config).value;
              && Connect(conn, build).Ok?
              && r.store[processId].endpoint == Some(Connect(conn, build).value.address)
              && r.store[processId].searchStatus == store[processId].searchStatus
              && r.store[processId].passport == store[processId].passport
              && r.store[processId].status.Some?
              && r.store[processId].status.value.Consistent()
              && r.store[processId].status.value.current == TwinFoundStatus
              && r.store[processId].status.value.history
                 == c.status.history + [Transition(TwinFoundStatus, History(conn.assetId, ReadyState))]
    ensures GetEndpointData(parsed, decode).Ok? && Correlate(store, processId, endpointId).Ok? ==>
              var found := query(Correlate(store, processId, endpointId).value.search, GetEndpointData(parsed, decode).value);
              && (r.outcome == NotFound(NoEndpointAddress) <==> ExtractConnection(found, config).None?)
              && (ExtractConnection(found, config).Some? && Connect(ExtractConnection(found, config).value, build).Err? ==>
                    r == Reply(Connect(ExtractConnection(found, config).value, build).error, store))
              && (ExtractConnection(found, config).Some? && Connect(ExtractConnection(found, config).value, build).Ok? ==>
                    r.outcome == Success)
  {
    match GetEndpointData(parsed, decode)
    case Err(invalid) => Reply(BadRequest(invalid), store)
    case Ok(edr) =>
      match Correlate(store, processId, endpointId)
      case Err(outcome) => Reply(outcome, store)
      case Ok(c) =>
        match ExtractConnection(query(c.search, edr), config)
        case None => Reply(NotFound(NoEndpointAddress), store)
        case Some(conn) =>
          match Connect(conn, build)
          case Err(outcome) => Reply(outcome, store)
          case Ok(target) => Reply(Success, store[processId := Record(c.process, c.status, target, c.dtr, conn.twin)])
  }

  // ---------------------------------------------------------------------------
  // Data callback
  // ---------------------------------------------------------------------------

  /** What the data plane returns for a reference: a passport, nothing, or a
      failure (an exception). */
  datatype PassportFetch = Fetched(passport: Passport) | NoPassport | FetchFailed

  type DataPlane = DataPlaneEndpoint -> PassportFetch

  /** endpoint: the data callback for `processId`; it does not look at the
      process's status, so it is accepted before the registry callback. */
  function EndpointCallback(parsed: Option<DataPlaneEndpoint>, decode: TokenDecoder, processId: string,
                            store: Store, fetch: DataPlane): (r: Reply)
    ensures r.outcome.BadRequest? <==> GetEndpointData(parsed, decode).Err?
    ensures GetEndpointData(parsed, decode).Err? ==> r == Reply(BadRequest(GetEndpointData(parsed, decode).error), store)
    ensures r.outcome == NotFound(ProcessNotFound) <==> GetEndpointData(parsed, decode).Ok? && processId !in store
    ensures r.outcome == NotFound(PassportNotFound) <==>
              GetEndpointData(parsed, decode).Ok? && processId in store && fetch(GetEndpointData(parsed, decode).value).NoPassport?
    ensures r.outcome == Forbidden <==>
              GetEndpointData(parsed, decode).Ok? && processId in store && fetch(GetEndpointData(parsed, decode).value).FetchFailed?
    ensures r.outcome == Success <==>
              GetEndpointData(parsed, decode).Ok? && processId in store && fetch(GetEndpointData(parsed, decode).value).Fetched?
    ensures r.outcome == Success ==>
              r.store == store[processId := store[processId].(passport := Some(fetch(GetEndpointData(parsed, decode).value).passport))]
    ensures r.outcome != Success ==> r.store == store
    ensures !r.outcome.Null?
  {
    match GetEndpointData(parsed, decode)
    case Err(invalid) => Reply(BadRequest(invalid), store)
    case Ok(edr) =>
      if processId !in store then Reply(NotFound(ProcessNotFound), store)
      else
        match fetch(edr)
        case FetchFailed => Reply(Forbidden, store)
        case NoPassport => Reply(NotFound(PassportNotFound), store)
        case Fetched(passport) => Reply(Success, store[processId := store[processId].(passport := Some(passport))])
  }
}

=== FILE: app_controller_properties.dfy ===
/** Properties of the callbacks that relate several calls or several inputs:
    correlation by endpoint id, first-match endpoint selection, replaying a
    callback, and the independence of the data callback from process state. */
module AppControllerProperties {
  import opened Wrappers
  import opened ProcessStore
  import opened AppController

  /** Appending the same transition twice records it twice. */
  lemma AppendNeverMerges(status: Status, name: string, entry: History)
    ensures var twice := SetStatus(SetStatus(status, name, entry), name, entry);
            && |twice.history| == |status.history| + 2
            && twice.history[|status.history|] == twice.history[|status.history| + 1] == Transition(name, entry)
            && twice.history[..|status.history|] == status.history
  {
  }

  /** A registry callback naming an endpoint id the process's search does not
      hold is NotFound and leaves the store, and so the process history, as it
      was. */
  lemma UnknownEndpointIdIsNotFound(parsed: Option<DataPlaneEndpoint>, decode: TokenDecoder, processId: string,
                                    endpointId: string, store: Store, query: RegistryQuery, build: EndpointBuilder,
                                    config: DtrConfig)
    requires GetEndpointData(parsed, decode).Ok?
    requires processId in store && store[processId].status.Some?
    requires store[processId].searchStatus.Some? && store[processId].searchStatus.value.search.Some?
    requires endpointId !in store[processId].searchStatus.value.dtrs
    ensures GetDigitalTwin(parsed, decode, processId, endpointId, store, query, build, config)
            == Reply(NotFound(NoDtr), store)
  {
  }

  /** A successful registry callback records the connector address normalised
      from the first sub-model endpoint declared under the configured
      interface, the business partner of the registry matched by the endpoint
      id, and the twin the registry query returned. */
  lemma SuccessRecordsFirstMatchingEndpoint(parsed: Option<DataPlaneEndpoint>, decode: TokenDecoder, processId: string,
                                            endpointId: string, store: Store, query: RegistryQuery,
                                            build: EndpointBuilder, config: DtrConfig)
    ensures var r := GetDigitalTwin(parsed, decode, processId, endpointId, store, query, build, config);
            r.outcome == Success ==>
            && var process := store[processId];
            && process.searchStatus.Some? && process.searchStatus.value.search.Some?
            && endpointId in process.searchStatus.value.dtrs
            && r.store[processId].bpn == Some(process.searchStatus.value.dtrs[endpointId].bpn)
            && var found := query(process.searchStatus.value.search.value, parsed.value);
            && found.Some?
            && r.store[processId].digitalTwin == Some(found.value.twin)
            && exists i :: FirstMatching(found.value.subModel.endpoints, config.endpointInterface, i)
                 && var body := found.value.subModel.endpoints[i].subprotocolBody;
                 && body.Some? && config.dspEndpointKey in body.value
                 && r.store[processId].endpoint.Some?
                 && build(body.value[config.dspEndpointKey]) == Some(r.store[processId].endpoint.value)
                 && r.store[processId].status.Some?
                 && r.store[processId].status.value.history
                    == process.status.value.history
                       + [Transition(TwinFoundStatus, History(Lookup(body.value, AssetIdKey), ReadyState))]
  {
  }

  /** Replaying an accepted registry callback, with the same registry answer
      and the same address normaliser, is accepted again and records the
      "digital-twin-found" transition a second time. */
  lemma ReplayRecordsAgain(parsed: Option<DataPlaneEndpoint>, decode: TokenDecoder, processId: string,
                           endpointId: string, store: Store, query: RegistryQuery, build: EndpointBuilder,
                           config: DtrConfig)
    ensures var first := GetDigitalTwin(parsed, decode, processId, endpointId, store, query, build, config);
            var second := GetDigitalTwin(parsed, decode, processId, endpointId, first.store, query, build, config);
            first.outcome == Success ==>
            && second.outcome == Success
            && second.store == first.store[processId := second.store[processId]]
            && |second.store[processId].status.value.history| == |store[processId].status.value.history| + 2
            && second.store[processId].status.value.current == TwinFoundStatus
  {
  }

  /** Only the first matching sub-model endpoint matters: endpoints listed
      after it, matching or not, never change the selection. */
  lemma LaterEndpointsDoNotChangeSelection(endpoints: seq<EndPoint>, more: seq<EndPoint>, name: string)
    requires SelectEndpoint(endpoints, name).Some?
    ensures SelectEndpoint(endpoints + more, name) == SelectEndpoint(endpoints, name)
  {
    var all := endpoints + more;
    var i := SelectEndpoint(endpoints, name).value;
    assert all[i] == endpoints[i];
    assert forall j :: 0 <= j < i ==> all[j] == endpoints[j];
  }

  /** The data callback reads nothing of a process but its existence: it gives
      the same outcome whether or not the registry callback has recorded
      anything yet. */
  lemma EndpointCallbackIgnoresProcessState(parsed: Option<DataPlaneEndpoint>, decode: TokenDecoder, processId: string,
                                            store: Store, other: Store, fetch: DataPlane)
    requires processId in store <==> processId in other
    ensures EndpointCallback(parsed, decode, processId, store, fetch).outcome
            == EndpointCallback(parsed, decode, processId, other, fetch).outcome
  {
  }

  /** The token is decoded only when the reference carries no offer id. */
  lemma DecoderUnusedWithOfferId(parsed: Option<DataPlaneEndpoint>, decode: TokenDecoder, other: TokenDecoder)
    requires parsed.Some? && parsed.value.offerId.Some?
    ensures GetEndpointData(parsed, decode) == GetEndpointData(parsed, other)
  {
  }
}

=== FILE: catenax_service.dfy ===
/** The discovery side of the Catena-X service: resolving logical service keys
    ("bpn", "edc", identifier types) to endpoint addresses through the discovery
    finder, and caching them in the vault under "discovery.<key>".

    The vault is a map from secret names to values; a name that is absent stands
    both for a missing secret and for one whose value is null. Remote calls are
    parameters: the discovery finder answers a list of requested types with a
    list of endpoints (or fails), and the vault's verdict on a write is a
    function of the key and value written. */
module CatenaXService {
  import opened Wrappers
  import Seqs

  /** One entry of a discovery-finder answer: a type key and its address. */
  datatype Endpoint = Endpoint(endpointType: string, address: string)

  /** The configuration read at start-up: the finder's address, the keys the
      default bpn and edc discovery endpoints are requested under, and the path
      appended to a bpn discovery address for searches. */
  datatype DiscoveryConfig =
    DiscoveryConfig(endpoint: string, bpnKey: string, edcKey: string, bpnSearchPath: string)

  type Vault = map<string, string>

  /** The discovery finder: requested types to its answer, `None` when the POST
      or the binding of its body fails. */
  type Finder = seq<string> -> Option<seq<Endpoint>>

  /** Whether the vault accepts writing a value under a key (setLocalSecret's
      boolean). A rejected write leaves the vault as it was. */
  type VaultWrite = (string, string) -> bool

  /** The service exceptions, each wrapping the one that caused it. */
  datatype ServiceError =
    | EndpointNotAvailable(key: string)        // the finder's answer lacks the key
    | FinderUnreachable                         // the POST to the finder failed
    | UpdateFailed(cause: ServiceError)         // rethrown by updateDiscovery / updateDefaultDiscovery
    | NotStored                                 // addEndpoint: the update reported false
    | AddEndpointFailed(cause: ServiceError)    // rethrown by addEndpoint
    | EdcEndpointMissing                        // "discovery.edc" is not cached
    | BpnEndpointMissing                        // "discovery.<type>" is not cached
    | EdcDiscoveryFailed(cause: ServiceError)   // rethrown by getEdcDiscovery
    | BpnDiscoveryFailed(cause: ServiceError)   // rethrown by getBpnDiscovery

  /** The boolean an update returns together with the vault it leaves. */
  datatype Stored = Stored(ok: bool, vault: Vault)

  /** The result of an operation that may write to the vault before failing. */
  datatype Cached<T> = Cached(result: Result<T, ServiceError>, vault: Vault)

  /** The POST a discovery operation sends: the address and the body. */
  datatype SearchRequest =
    | EdcSearch(url: string, bpns: seq<string>)
    | BpnSearch(url: string, idType: string, keys: seq<string>)

  const KeyPrefix: string := "discovery."

  /** The literal slot the edc discovery endpoint is cached in, whatever the
      configured edc key is. */
  const EdcSlot: string := "edc"

  /** The vault name of a discovery key: the key after the "discovery." prefix. */
  function VaultKey(key: string): (name: string)
    ensures |name| == |KeyPrefix| + |key|
    ensures name[..|KeyPrefix|] == KeyPrefix && name[|KeyPrefix|..] == key
  {
    KeyPrefix + key
  }

  predicate Holds(vault: Vault, name: string, value: string)
  {
    name in vault && vault[name] == value
  }

  /** Every name outside `names` is bound in `after` exactly as in `before`. */
  ghost predicate SameExcept(before: Vault, after: Vault, names: set<string>)
  {
    forall n :: n !in names ==> (n in after <==> n in before) && (n in before ==> after[n] == before[n])
  }

  /** Some endpoint of the answer has the given type. */
  ghost predicate Offers(endpoints: seq<Endpoint>, key: string)
  {
    exists e :: e in endpoints && e.endpointType == key
  }

  /** Whether updateEndpointFile stores `endpoint` under `key`: its address is
      non-empty and the vault accepts the write. */
  predicate Storable(endpoint: Endpoint, key: string, accepts: VaultWrite)
  {
    endpoint.address != "" && accepts(VaultKey(key), endpoint.address)
  }

  /** The default update writes the answer's bpn endpoint: the answer is
      non-empty, holds both default keys, and the vault takes the bpn endpoint
      under the configured bpn key. */
  predicate WritesBpn(endpoints: seq<Endpoint>, config: DiscoveryConfig, accepts: VaultWrite)
  {
    && |endpoints| > 0
    && FindEndpoint(endpoints, config.bpnKey).Ok? && FindEndpoint(endpoints, config.edcKey).Ok?
    && Storable(FindEndpoint(endpoints, config.bpnKey).value, config.bpnKey, accepts)
  }

  /** The default update writes the answer's edc endpoint: as `WritesBpn`, for
      the edc endpoint in the "edc" slot. */
  predicate WritesEdc(endpoints: seq<Endpoint>, config: DiscoveryConfig, accepts: VaultWrite)
  {
    && |endpoints| > 0
    && FindEndpoint(endpoints, config.bpnKey).Ok? && FindEndpoint(endpoints, config.edcKey).Ok?
    && Storable(FindEndpoint(endpoints, config.edcKey).value, EdcSlot, accepts)
  }

  // ---------------------------------------------------------------------------
  // Configuration check
  // ---------------------------------------------------------------------------

  /** Position of a configuration name in the order getEmptyVariables reports. */
  function Rank(name: string): nat
  {
    if name == "discovery.endpoint" then 0
    else if name == "discovery.edcKey" then 1
    else if name == "discovery.bpnKey" then 2
    else 3
  }

  /** getEmptyVariables as written: the bpn key is inspected twice, once for
      each of the two names, and the edc key never. */
  function EmptyVariables(config: DiscoveryConfig): (missing: seq<string>)
    ensures "discovery.endpoint" in missing <==> config.endpoint == ""
    ensures "discovery.edcKey" in missing <==> config.bpnKey == ""
    ensures "discovery.bpnKey" in missing <==> config.bpnKey == ""
    ensures forall i :: 0 <= i < |missing| ==> Rank(missing[i]) < 3
    ensures forall i, j :: 0 <= i < j < |missing| ==> Rank(missing[i]) < Rank(missing[j])
  {
    (if config.endpoint == "" then ["discovery.endpoint"] else [])
    + (if config.bpnKey == "" then ["discovery.edcKey"] else [])
    + (if config.bpnKey == "" then ["discovery.bpnKey"] else [])
  }

  /** getEmptyVariables as evidently intended: each name reports its own key. */
  function EmptyVariablesIntended(config: DiscoveryConfig): (missing: seq<string>)
    ensures "discovery.endpoint" in missing <==> config.endpoint == ""
    ensures "discovery.edcKey" in missing <==> config.edcKey == ""
    ensures "discovery.bpnKey" in missing <==> config.bpnKey == ""
    ensures forall i :: 0 <= i < |missing| ==> Rank(missing[i]) < 3
    ensures forall i, j :: 0 <= i < j < |missing| ==> Rank(missing[i]) < Rank(missing[j])
  {
    (if config.endpoint == "" then ["discovery.endpoint"] else [])
    + (if config.edcKey == "" then ["discovery.edcKey"] else [])
    + (if config.bpnKey == "" then ["discovery.bpnKey"] else [])
  }

  // ---------------------------------------------------------------------------
  // Reading a finder answer
  // ---------------------------------------------------------------------------

  /** getDiscoveryEndpoint(discovery, key): an endpoint of the answer whose type
      is `key`; an error when there is none. The source asks the stream for any
      match; the model takes the first. */
  function FindEndpoint(endpoints: seq<Endpoint>, key: string): (r: Result<Endpoint, ServiceError>)
    ensures r.Ok? ==> r.value in endpoints && r.value.endpointType == key
    ensures r.Err? <==> !Offers(endpoints, key)
    ensures r.Err? ==> r.error == EndpointNotAvailable(key)
  {
    match Seqs.FirstIndex(endpoints, (e: Endpoint) => e.endpointType == key)
    case Some(i) => Ok(endpoints[i])
    case None => Err(EndpointNotAvailable(key))
  }

  // ---------------------------------------------------------------------------
  // Writing the cache
  // ---------------------------------------------------------------------------

  /** updateEndpointFile: store the endpoint's address under "discovery.<key>";
      an empty address is refused before the vault is touched. */
  function UpdateEndpointFile(vault: Vault, endpoint: Endpoint, key: string, accepts: VaultWrite): (r: Stored)
    ensures endpoint.address == "" ==> r == Stored(false, vault)
    ensures r.ok <==> Storable(endpoint, key, accepts)
    ensures r.ok ==> Holds(r.vault, VaultKey(key), endpoint.address)
    ensures !r.ok ==> r.vault == vault
    ensures SameExcept(vault, r.vault, {VaultKey(key)})
  {
    if endpoint.address == "" then Stored(false, vault)
    else if !accepts(VaultKey(key), endpoint.address) then Stored(false, vault)
    else Stored(true, vault[VaultKey(key) := endpoint.address])
  }

  /** updateDefaultDiscoveryFile: store the bpn endpoint under the configured
      bpn key and the edc endpoint under the literal "edc" slot. Both writes are
      attempted before either verdict is looked at. */
  function UpdateDefaultDiscoveryFile(vault: Vault, bpnEndpoint: Endpoint, edcEndpoint: Endpoint,
                                      config: DiscoveryConfig, accepts: VaultWrite): (r: Stored)
    ensures r.ok <==> Storable(bpnEndpoint, config.bpnKey, accepts) && Storable(edcEndpoint, EdcSlot, accepts)
    ensures Storable(edcEndpoint, EdcSlot, accepts) ==> Holds(r.vault, VaultKey(EdcSlot), edcEndpoint.address)
    ensures Storable(bpnEndpoint, config.bpnKey, accepts) && config.bpnKey != EdcSlot
            ==> Holds(r.vault, VaultKey(config.bpnKey), bpnEndpoint.address)
    ensures !Storable(bpnEndpoint, config.bpnKey, accepts) && !Storable(edcEndpoint, EdcSlot, accepts)
            ==> r.vault == vault
    ensures !Storable(bpnEndpoint, config.bpnKey, accepts) ==> SameExcept(vault, r.vault, {VaultKey(EdcSlot)})
    ensures !Storable(edcEndpoint, EdcSlot, accepts) ==> SameExcept(vault, r.vault, {VaultKey(config.bpnKey)})
    ensures SameExcept(vault, r.vault, {VaultKey(config.bpnKey), VaultKey(EdcSlot)})
  {
    var bpn := UpdateEndpointFile(vault, bpnEndpoint, config.bpnKey, accepts);
    var edc := UpdateEndpointFile(bpn.vault, edcEndpoint, EdcSlot, accepts);
    Stored(bpn.ok && edc.ok, edc.vault)
  }

  /** updateDiscovery: cache the answer's endpoint for `key`. An empty answer is
      reported as false; a non-empty one lacking the key is an error. */
  function UpdateDiscovery(vault: Vault, endpoints: seq<Endpoint>, key: string, accepts: VaultWrite)
    : (r: Result<Stored, ServiceError>)
    ensures |endpoints| == 0 ==> r == Ok(Stored(false, vault))
    ensures |endpoints| > 0 ==> (r.Err? <==> !Offers(endpoints, key))
    ensures r.Err? ==> r.error == UpdateFailed(EndpointNotAvailable(key))
    ensures r.Ok? ==> SameExcept(vault, r.value.vault, {VaultKey(key)})
    ensures r.Ok? && r.value.ok ==>
              exists e :: e in endpoints && e.endpointType == key && Holds(r.value.vault, VaultKey(key), e.address)
    ensures r.Ok? && !r.value.ok ==> r.value.vault == vault
    ensures |endpoints| > 0 && FindEndpoint(endpoints, key).Ok? ==>
              && r.Ok?
              && (r.value.ok <==> Storable(FindEndpoint(endpoints, key).value, key, accepts))
              && (r.value.ok ==> Holds(r.value.vault, VaultKey(key), FindEndpoint(endpoints, key).value.address))
  {
    if |endpoints| == 0 then Ok(Stored(false, vault))
    else
      match FindEndpoint(endpoints, key)
      case Err(e) => Err(UpdateFailed(e))
      case Ok(endpoint) => Ok(UpdateEndpointFile(vault, endpoint, key, accepts))
  }

  /** updateDefaultDiscovery: cache the answer's bpn and edc endpoints. Both are
      looked up (bpn first) before anything is written. */
  function UpdateDefaultDiscovery(vault: Vault, endpoints: seq<Endpoint>, config: DiscoveryConfig, accepts: VaultWrite)
    : (r: Result<Stored, ServiceError>)
    ensures |endpoints| == 0 ==> r == Ok(Stored(false, vault))
    ensures |endpoints| > 0 ==>
              (r.Err? <==> !Offers(endpoints, config.bpnKey) || !Offers(endpoints, config.edcKey))
    ensures r.Err? && !Offers(endpoints, config.bpnKey) ==> r.error == UpdateFailed(EndpointNotAvailable(config.bpnKey))
    ensures r.Err? && Offers(endpoints, config.bpnKey) ==> r.error == UpdateFailed(EndpointNotAvailable(config.edcKey))
    ensures r.Ok? ==> SameExcept(vault, r.value.vault, {VaultKey(config.bpnKey), VaultKey(EdcSlot)})
    ensures r.Ok? && r.value.ok ==>
              exists e :: e in endpoints && e.endpointType == config.edcKey && Holds(r.value.vault, VaultKey(EdcSlot), e.address)
    ensures r.Ok? && r.value.ok ==> VaultKey(config.bpnKey) in r.value.vault
    ensures r.Ok? && r.value.ok && config.bpnKey != EdcSlot ==>
              exists e :: e in endpoints && e.endpointType == config.bpnKey && Holds(r.value.vault, VaultKey(config.bpnKey), e.address)
    ensures |endpoints| > 0 && r.Ok? ==>
              (r.value.ok <==> WritesBpn(endpoints, config, accepts) && WritesEdc(endpoints, config, accepts))
    ensures WritesEdc(endpoints, config, accepts) ==>
              r.Ok? && Holds(r.value.vault, VaultKey(EdcSlot), FindEndpoint(endpoints, config.edcKey).value.address)
    ensures WritesBpn(endpoints, config, accepts) && config.bpnKey != EdcSlot ==>
              r.Ok? && Holds(r.value.vault, VaultKey(config.bpnKey), FindEndpoint(endpoints, config.bpnKey).value.address)
    ensures r.Ok? && !WritesEdc(endpoints, config, accepts) ==> SameExcept(vault, r.value.vault, {VaultKey(config.bpnKey)})
    ensures r.Ok? && !WritesBpn(endpoints, config, accepts) ==> SameExcept(vault, r.value.vault, {VaultKey(EdcSlot)})
  {
    if |endpoints| == 0 then Ok(Stored(false, vault))
    else
      match FindEndpoint(endpoints, config.bpnKey)
      case Err(e) => Err(UpdateFailed(e))
      case Ok(bpnEndpoint) =>
        match FindEndpoint(endpoints, config.edcKey)
        case Err(e) => Err(UpdateFailed(e))
        case Ok(edcEndpoint) => Ok(UpdateDefaultDiscoveryFile(vault, bpnEndpoint, edcEndpoint, config, accepts))
  }

  // ---------------------------------------------------------------------------
  // Resolving through the finder
  // ---------------------------------------------------------------------------

  /** The types start asks the finder for: the configured bpn and edc keys. */
  function DefaultKeys(config: DiscoveryConfig): seq<string>
  {
    [config.bpnKey, config.edcKey]
  }

  /** start: ask the finder for the two default keys and cache the answer. The
      answer is returned even when caching reported false; `Err` stands for the
      null returned when the finder or the update fails. */
  function Start(vault: Vault, config: DiscoveryConfig, finder: Finder, accepts: VaultWrite)
    : (r: Cached<seq<Endpoint>>)
    ensures r.result.Ok? ==> finder(DefaultKeys(config)) == Some(r.result.value)
    ensures finder(DefaultKeys(config)).None? ==> r.result.Err? && r.vault == vault
    ensures finder(DefaultKeys(config)) == Some([]) ==> r == Cached(Ok([]), vault)
    ensures finder(DefaultKeys(config)).Some? ==>
              var answer := finder(DefaultKeys(config)).value;
              && (|answer| > 0 ==> (r.result.Err? <==> !Offers(answer, config.bpnKey) || !Offers(answer, config.edcKey)))
              && (WritesEdc(answer, config, accepts) ==>
                    r.result.Ok? && Holds(r.vault, VaultKey(EdcSlot), FindEndpoint(answer, config.edcKey).value.address))
              && (WritesBpn(answer, config, accepts) && config.bpnKey != EdcSlot ==>
                    r.result.Ok? && Holds(r.vault, VaultKey(config.bpnKey), FindEndpoint(answer, config.bpnKey).value.address))
              && (!WritesEdc(answer, config, accepts) ==> SameExcept(vault, r.vault, {VaultKey(config.bpnKey)}))
              && (!WritesBpn(answer, config, accepts) ==> SameExcept(vault, r.vault, {VaultKey(EdcSlot)}))
    ensures r.result.Err? ==> r.vault == vault
    ensures SameExcept(vault, r.vault, {VaultKey(config.bpnKey), VaultKey(EdcSlot)})
  {
    match finder(DefaultKeys(config))
    case None => Cached(Err(FinderUnreachable), vault)
    case Some(endpoints) =>
      match UpdateDefaultDiscovery(vault, endpoints, config, accepts)
      case Err(e) => Cached(Err(e), vault)
      case Ok(stored) => Cached(Ok(endpoints), stored.vault)
  }

  /** addEndpoint: ask the finder for one key and cache its answer as the
      default bpn and edc endpoints. Every failure, including an update that
      reports false, is rethrown; writes made before it stay in the vault. */
  function AddEndpoint(vault: Vault, key: string, config: DiscoveryConfig, finder: Finder, accepts: VaultWrite)
    : (r: Cached<seq<Endpoint>>)
    ensures finder([key]).None? ==> r == Cached(Err(AddEndpointFailed(FinderUnreachable)), vault)
    ensures r.result.Ok? ==> finder([key]) == Some(r.result.value) && |r.result.value| > 0
    ensures r.result.Ok? ==>
              exists e :: e in r.result.value && e.endpointType == config.edcKey && Holds(r.vault, VaultKey(EdcSlot), e.address)
    ensures r.result.Ok? ==> VaultKey(config.bpnKey) in r.vault
    ensures r.result.Err? ==> r.result.error.AddEndpointFailed?
    ensures SameExcept(vault, r.vault, {VaultKey(config.bpnKey), VaultKey(EdcSlot)})
    ensures finder([key]).Some? ==>
              (r.result.Ok? <==> WritesBpn(finder([key]).value, config, accepts) && WritesEdc(finder([key]).value, config, accepts))
    ensures finder([key]).Some? && WritesEdc(finder([key]).value, config, accepts) ==>
              Holds(r.vault, VaultKey(EdcSlot), FindEndpoint(finder([key]).value, config.edcKey).value.address)
    ensures finder([key]).Some? && WritesBpn(finder([key]).value, config, accepts) && config.bpnKey != EdcSlot ==>
              Holds(r.vault, VaultKey(config.bpnKey), FindEndpoint(finder([key]).value, config.bpnKey).value.address)
    ensures finder([key]).Some? && !WritesEdc(finder([key]).value, config, accepts) ==>
              SameExcept(vault, r.vault, {VaultKey(config.bpnKey)})
    ensures finder([key]).Some? && !WritesBpn(finder([key]).value, config, accepts) ==>
              SameExcept(vault, r.vault, {VaultKey(EdcSlot)})
    ensures r.result.Err? && r.result.error != AddEndpointFailed(NotStored) ==> r.vault == vault
  {
    match finder([key])
    case None => Cached(Err(AddEndpointFailed(FinderUnreachable)), vault)
    case Some(endpoints) =>
      match UpdateDefaultDiscovery(vault, endpoints, config, accepts)
      case Err(e) => Cached(Err(AddEndpointFailed(e)), vault)
      case Ok(stored) =>
        if stored.ok then Cached(Ok(endpoints), stored.vault)
        else Cached(Err(AddEndpointFailed(NotStored)), stored.vault)
  }

  /** getEdcDiscovery, up to the POST: the edc discovery endpoint must already
      be cached in the "edc" slot; it is never resolved here. */
  function GetEdcDiscovery(vault: Vault, bpns: seq<string>): (r: Result<SearchRequest, ServiceError>)
    ensures r.Ok? <==> VaultKey(EdcSlot) in vault
    ensures r.Ok? ==> r.value.EdcSearch? && Holds(vault, VaultKey(EdcSlot), r.value.url) && r.value.bpns == bpns
    ensures r.Err? ==> r.error == EdcDiscoveryFailed(EdcEndpointMissing)
  {
    if VaultKey(EdcSlot) in vault then Ok(EdcSearch(vault[VaultKey(EdcSlot)], bpns))
    else Err(EdcDiscoveryFailed(EdcEndpointMissing))
  }

  /** getBpnDiscovery, up to the POST: when "discovery.<idType>" is not cached
      it is filled through addEndpoint first; the search goes to the cached
      address followed by the configured search path. */
  function GetBpnDiscovery(vault: Vault, id: string, idType: string, config: DiscoveryConfig,
                           finder: Finder, accepts: VaultWrite): (r: Cached<SearchRequest>)
    ensures VaultKey(idType) in vault ==>
              r == Cached(Ok(BpnSearch(vault[VaultKey(idType)] + config.bpnSearchPath, idType, [id])), vault)
    ensures r.result.Ok? ==>
              && r.result.value.BpnSearch?
              && VaultKey(idType) in r.vault
              && r.result.value.url == r.vault[VaultKey(idType)] + config.bpnSearchPath
              && r.result.value.idType == idType && r.result.value.keys == [id]
    ensures VaultKey(idType) !in vault && r.result.Ok? ==> idType == config.bpnKey || idType == EdcSlot
    ensures VaultKey(idType) !in vault && finder([idType]).None? ==> r.result.Err? && r.vault == vault
    ensures r.result.Err? ==> r.result.error.BpnDiscoveryFailed?
    ensures SameExcept(vault, r.vault, {VaultKey(config.bpnKey), VaultKey(EdcSlot)})
    ensures VaultKey(idType) !in vault ==>
              var filled := AddEndpoint(vault, idType, config, finder, accepts);
              && r.vault == filled.vault
              && (r.result.Ok? <==> filled.result.Ok? && VaultKey(idType) in filled.vault)
              && (filled.result.Err? ==> r.result == Err(BpnDiscoveryFailed(filled.result.error)))
  {
    var filled :=
      if VaultKey(idType) in vault then Cached(Ok([]), vault)
      else AddEndpoint(vault, idType, config, finder, accepts);
    if filled.result.Err? then Cached(Err(BpnDiscoveryFailed(filled.result.error)), filled.vault)
    else if VaultKey(idType) !in filled.vault then Cached(Err(BpnDiscoveryFailed(BpnEndpointMissing)), filled.vault)
    else Cached(Ok(BpnSearch(filled.vault[VaultKey(idType)] + config.bpnSearchPath, idType, [id])), filled.vault)
  }
}

=== FILE: catenax_service_properties.dfy ===
/** Properties relating several discovery operations: what the cache written by
    one operation lets the next one do, idempotence of the default update, and
    the configuration check's blind spot. */
module CatenaXServiceProperties {
  import opened Wrappers
  import opened CatenaXService

  /** The configuration check as written reads nothing of the edc key. */
  lemma EdcKeyNeverInspected(config: DiscoveryConfig, edcKey: string)
    ensures EmptyVariables(config.(edcKey := edcKey)) == EmptyVariables(config)
  {
  }

  /** A configuration with only the edc key empty passes the check as written,
      while the intended check reports it. */
  lemma EmptyEdcKeyGoesUnreported()
    ensures var config := DiscoveryConfig("https://finder.example/api", "manufacturerPartId", "", "/search");
            EmptyVariables(config) == [] && EmptyVariablesIntended(config) == ["discovery.edcKey"]
  {
  }

  /** After a successful default update, getEdcDiscovery finds the edc
      endpoint the finder answered, though it was requested under the
      configured edc key and cached in the literal "edc" slot. */
  lemma DefaultsServeEdcDiscovery(vault: Vault, endpoints: seq<Endpoint>, config: DiscoveryConfig,
                                  accepts: VaultWrite, bpns: seq<string>)
    requires UpdateDefaultDiscovery(vault, endpoints, config, accepts).Ok?
    requires UpdateDefaultDiscovery(vault, endpoints, config, accepts).value.ok
    ensures var cached := UpdateDefaultDiscovery(vault, endpoints, config, accepts).value.vault;
            && GetEdcDiscovery(cached, bpns).Ok?
            && exists e :: e in endpoints && e.endpointType == config.edcKey
                           && GetEdcDiscovery(cached, bpns).value == EdcSearch(e.address, bpns)
  {
  }

  /** After a successful default update, a bpn discovery for the configured bpn
      key is served from the cache: whatever the finder would answer, it is not
      asked, and the vault is left as it is. */
  lemma DefaultsServeBpnDiscovery(vault: Vault, endpoints: seq<Endpoint>, config: DiscoveryConfig,
                                  accepts: VaultWrite, id: string, finder: Finder)
    requires UpdateDefaultDiscovery(vault, endpoints, config, accepts).Ok?
    requires UpdateDefaultDiscovery(vault, endpoints, config, accepts).value.ok
    requires config.bpnKey != EdcSlot
    ensures var cached := UpdateDefaultDiscovery(vault, endpoints, config, accepts).value.vault;
            exists e :: e in endpoints && e.endpointType == config.bpnKey
                        && GetBpnDiscovery(cached, id, config.bpnKey, config, finder, accepts)
                           == Cached(Ok(BpnSearch(e.address + config.bpnSearchPath, config.bpnKey, [id])), cached)
  {
  }

  /** An uncached bpn discovery for the configured bpn key is filled lazily:
      when the finder's answer holds storable bpn and edc endpoints, the search
      goes to the bpn endpoint it answered. */
  lemma LazyFillServesBpnKey(vault: Vault, id: string, config: DiscoveryConfig, finder: Finder, accepts: VaultWrite)
    requires VaultKey(config.bpnKey) !in vault
    requires config.bpnKey != EdcSlot
    requires finder([config.bpnKey]).Some?
    requires FindEndpoint(finder([config.bpnKey]).value, config.bpnKey).Ok?
    requires FindEndpoint(finder([config.bpnKey]).value, config.edcKey).Ok?
    requires Storable(FindEndpoint(finder([config.bpnKey]).value, config.bpnKey).value, config.bpnKey, accepts)
    requires Storable(FindEndpoint(finder([config.bpnKey]).value, config.edcKey).value, EdcSlot, accepts)
    ensures var r := GetBpnDiscovery(vault, id, config.bpnKey, config, finder, accepts);
            && r.result.Ok?
            && r.result.value.url
               == FindEndpoint(finder([config.bpnKey]).value, config.bpnKey).value.address + config.bpnSearchPath
            && Holds(r.vault, VaultKey(config.bpnKey), FindEndpoint(finder([config.bpnKey]).value, config.bpnKey).value.address)
  {
  }

  /** After updateDiscovery has cached an answer for `key`, a bpn discovery for
      that type is served from the cache, at an address the finder answered for
      it, without asking the finder again. */
  lemma UpdateDiscoveryServesBpnDiscovery(vault: Vault, endpoints: seq<Endpoint>, key: string, accepts: VaultWrite,
                                          id: string, config: DiscoveryConfig, finder: Finder)
    requires UpdateDiscovery(vault, endpoints, key, accepts).Ok?
    requires UpdateDiscovery(vault, endpoints, key, accepts).value.ok
    ensures var cached := UpdateDiscovery(vault, endpoints, key, accepts).value.vault;
            exists e :: e in endpoints && e.endpointType == key
                        && GetBpnDiscovery(cached, id, key, config, finder, accepts)
                           == Cached(Ok(BpnSearch(e.address + config.bpnSearchPath, key, [id])), cached)
  {
  }

  /** Once start has cached an answer whose edc endpoint the vault takes,
      getEdcDiscovery sends its search to that endpoint. */
  lemma StartServesEdcDiscovery(vault: Vault, config: DiscoveryConfig, finder: Finder, accepts: VaultWrite,
                                bpns: seq<string>)
    requires finder(DefaultKeys(config)).Some?
    requires WritesEdc(finder(DefaultKeys(config)).value, config, accepts)
    ensures var started := Start(vault, config, finder, accepts);
            && started.result.Ok?
            && GetEdcDiscovery(started.vault, bpns)
               == Ok(EdcSearch(FindEndpoint(finder(DefaultKeys(config)).value, config.edcKey).value.address, bpns))
  {
  }

  /** Writing the same default endpoints twice leaves the vault as writing them
      once: the update is an upsert. The verdicts agree too, because the vault's
      verdict on a write depends only on the name and value written. */
  lemma DefaultDiscoveryFileIdempotent(vault: Vault, bpnEndpoint: Endpoint, edcEndpoint: Endpoint,
                                         config: DiscoveryConfig, accepts: VaultWrite)
    ensures var once := UpdateDefaultDiscoveryFile(vault, bpnEndpoint, edcEndpoint, config, accepts);
            var twice := UpdateDefaultDiscoveryFile(once.vault, bpnEndpoint, edcEndpoint, config, accepts);
            twice == once
  {
  }
}

=== FILE: process_store.dfy ===
/** The per-process record the callbacks read and write. The process manager
    that persists it is abstracted: the store is a map from process id to
    record, and its writes are plain record updates. */
module ProcessStore {
  import opened Wrappers

  /** One history entry: the payload id it refers to and a state name. */
  datatype History = History(id: Option<string>, state: string)

  /** A status change: the status name and its history entry. */
  datatype Transition = Transition(name: string, entry: History)

  /** The current status and the transitions that led to it, oldest first. */
  datatype Status = Status(current: string, history: seq<Transition>)
  {
    /** The status is the name of the latest transition, when there is one. */
    predicate Consistent()
    {
      |history| > 0 ==> current == history[|history| - 1].name
    }
  }

  /** setStatus: move to status `name`, recording `entry`. Earlier history is
      kept as it was; an identical transition is appended again, never merged. */
  function SetStatus(status: Status, name: string, entry: History): (s: Status)
    ensures s.Consistent()
    ensures |s.history| == |status.history| + 1
    ensures s.history[..|status.history|] == status.history
    ensures s.history[|status.history|] == Transition(name, entry)
    ensures s.current == name
  {
    Status(name, status.history + [Transition(name, entry)])
  }

  /** The search a process was started with: the asset identifier and its type. */
  datatype Search = Search(id: string, idType: string)

  /** A digital twin registry found for a connector: the business partner that
      owns it and the registry's address. */
  datatype Dtr = Dtr(bpn: string, endpoint: string)

  /** The search manifest: the search, and the registries found, keyed by the
      endpoint id their callback will carry. */
  datatype SearchStatus = SearchStatus(search: Option<Search>, dtrs: map<string, Dtr>)

  datatype DigitalTwin = DigitalTwin(identification: string)

  datatype Passport = Passport(content: string)

  datatype Process = Process(
    status: Option<Status>,
    searchStatus: Option<SearchStatus>,
    endpoint: Option<string>,
    bpn: Option<string>,
    digitalTwin: Option<DigitalTwin>,
    passport: Option<Passport>)

  type Store = map<string, Process>
}

=== FILE: seqs.dfy ===
/** Searching a sequence for the first element with a property. */
module Seqs {
  import opened Wrappers

  /** The index of the first element of `s` satisfying `p`, or `None` when no
      element does. */
  function FirstIndex<T>(s: seq<T>, p: T -> bool): (r: Option<nat>)
    ensures r.Some? ==> r.value < |s| && p(s[r.value])
    ensures r.Some? ==> forall j :: 0 <= j < r.value ==> !p(s[j])
    ensures r.None? <==> forall j :: 0 <= j < |s| ==> !p(s[j])
    decreases |s|
  {
    if |s| == 0 then None
    else if p(s[0]) then Some(0)
    else
      match FirstIndex(s[1..], p)
      case None => None
      case Some(i) => Some(i + 1)
  }
}

=== FILE: wrappers.dfy ===
/** Failure-compatible wrappers shared by the model: an optional value and a
    value-or-error result. */
module Wrappers {

  /** A value that may be absent; stands in for Java's `null`. */
  datatype Option<+T> = None | Some(value: T)

  /** Either a value or the error that prevented it; stands in for a thrown exception. */
  datatype Result<+T, +E> = Ok(value: T) | Err(error: E)
}
